=== FILE: README.md ===
# Tetrominoes engine, modelled in Dafny

This project models the engine of a falling-block game written in Java. It covers the board,
the falling piece, the seven piece kinds with their rotation tables, the four orientations,
and the mutable coordinate object. Some properties of the model are proved. The repository
holds two near-identical copies of the engine: `java.game`/`javagame` and `com.xinxin`.
The model follows the `java.game` board and the `javagame` piece. Where the copies differ,
both forms are modelled.

- `Geometry` (geometry.dfy) holds the `Point` value and the `Coords` class. `moveX`, `moveY`
  and `copyFrom` are methods that update the two fields in place and return the receiver.
- `Rotation` (rotation.dfy) holds the orientation cycle 0 → 90 → 180 → 270 → 0 and the
  left, right and no-rotation steps.
- `Tetromino` (tetromino.dfy) holds the seven kinds and their declared degree-0 offsets.
  - The other tables come from the quarter turn (x, y) → (y, −x). `Vertexes` is the
    function that defines them.
  - `InitVertexes` is the table-building loop, proved to build exactly `Vertexes`.
  - `GetInitialMaxY` is the running-maximum loop, proved to compute the maximum y.
- `Pieces` (pieces.dfy) holds the `Shape` class.
  - The side-effect-free queries are `ComputeMovable`, `ComputeRotation` and `GetAllY`.
  - `MoveAndRotate` is the only mutator. It is proved to commit exactly the origin and
    offsets that the queries predicted beforehand.
- `Playfield` (playfield.dfy) is the grid as a value (`seq<seq<Shape?>>`, column-major, row 0
  at the bottom). Its functions specify the board operations:
  - erasing and writing a footprint;
  - removing a row;
  - clearing a list of rows in order;
  - the score table.
- `Boards` (boards.dfy) holds the `Board` class over a 10 × 22 `array2`. The clear methods
  and the erase half of a commit are proved to leave the array holding exactly the grid
  that the `Playfield` functions compute from the old grid. The write half is proved to
  write a prefix of the new footprint, stopping at the first blocked cell. It writes all of
  it when the piece held no cell outside its old footprint.

Results proved about the board:

- A rejected move changes nothing.
- A cell held by the moving piece itself does not block the move.
- After an accepted move, the piece's cells are exactly its candidate cells. The score grows
  by 1 exactly on `Down`.
- If the piece held no cell outside its current footprint, the write loop of the commit
  cannot fail (`CommitSucceeds`). The piece then holds exactly its new footprint.
- Visiting the touched rows from the highest to the lowest removes as many rows as were
  full before the first clear (`ClearRowsCountsFullRows`). So the count is at most 4, and
  the score grows by the table value for that count.

Behaviour of the source that the model keeps:

- The erase half of a commit empties every in-bounds cell of the previous footprint, whoever
  holds it.
- A new piece holds no cell, yet its previous footprint is its spawn footprint. So its first
  commit erases the cells under the spawn position. A cell of a settled piece there is
  deleted; `SpawnCommitErasesForeignCell` gives such a board.
- `tryToMove` ignores the result of the commit. `TryToMoveShape` therefore promises, on every
  accepted move, only that the grid is the old grid with the old footprint erased and a
  prefix of the new footprint written.

## Model

| member | source | states |
|---|---|---|
| Geometry.Coords.Origin | tetrominoes/src/main/java/javagame/tetrominoes/data/Coords.java:14-16 | the no-argument constructor yields (0, 0) |
| Geometry.Coords.constructor | tetrominoes/src/main/java/javagame/tetrominoes/data/Coords.java:18-22 | stores exactly the given x and y |
| Geometry.Coords.MoveX | tetrominoes/src/main/java/javagame/tetrominoes/data/Coords.java:32-35 | x grows by dx, y is unchanged, and the receiver is returned |
| Geometry.Coords.MoveY | tetrominoes/src/main/java/javagame/tetrominoes/data/Coords.java:37-40 | y grows by dy, x is unchanged, and the receiver is returned |
| Geometry.Coords.CopyFrom | tetrominoes/src/main/java/javagame/tetrominoes/data/Coords.java:42-46 | the receiver takes the value of the argument; the argument keeps its value, also when it is the receiver |
| Geometry.ChainTranslates | tetrominoes/src/main/java/javagame/tetrominoes/data/Coords.java:32-40 | the chain moveX(dx).moveY(dy) returns the same object, translated by (dx, dy) |
| Geometry.MovesCommute | tetrominoes/src/main/java/java/game/tetrominoes/Coords.java:35-43 | moving x then y ends at the same point as moving y then x |
| Geometry.OppositeMovesCancel | tetrominoes/src/main/java/java/game/tetrominoes/Coords.java:35-43 | moving by (dx, dy) and then by (−dx, −dy) restores the point |
| Rotation.Ordinal | tetrominoes/src/main/java/java/game/tetrominoes/enums/RotationDegree.java:7 | each degree sits at its ordinal in the declaration order |
| Rotation.RotateRight | tetrominoes/src/main/java/java/game/tetrominoes/enums/RotationDegree.java:27-32 | the result is one ordinal lower, modulo 4 (0 wraps to 270) |
| Rotation.RotateLeft | tetrominoes/src/main/java/java/game/tetrominoes/enums/RotationDegree.java:34-39 | the result is one ordinal higher, modulo 4 (270 wraps to 0) |
| Rotation.Rotate | tetrominoes/src/main/java/java/game/tetrominoes/enums/RotationDegree.java:16-25 | total over all pairs; the degree changes if and only if the direction is a real rotation |
| Rotation.OppositeUndoes | tetrominoes/src/main/java/com/xinxin/tetrominoes/RotationDegree.java:17-29 | a rotation followed by the opposite one, in either order, restores the degree |
| Rotation.FullTurn | tetrominoes/src/main/java/java/game/tetrominoes/enums/RotationDegree.java:27-39 | four rotations in the same direction restore the degree |
| Tetromino.KindIndex | tetrominoes/src/main/java/java/game/tetrominoes/enums/Tetrominoes.java:11-24 | every kind sits at its index among exactly seven kinds |
| Tetromino.KindAt | tetrominoes/src/main/java/java/game/tetrominoes/enums/Tetrominoes.java:69-76 | every index the random draw can return selects a kind, and different indexes select different kinds |
| Tetromino.Degree0Offsets | tetrominoes/src/main/java/java/game/tetrominoes/enums/Tetrominoes.java:11-24 | every kind is declared with four offsets |
| Tetromino.QuarterTurnAll | tetrominoes/src/main/java/java/game/tetrominoes/enums/Tetrominoes.java:56-62 | the turned table has the length of its source and maps each offset (x, y) to (y, −x) |
| Tetromino.Turned | tetrominoes/src/main/java/java/game/tetrominoes/enums/Tetrominoes.java:44-64 | every table derived from a base table has the length of the base table |
| Tetromino.Vertexes | tetrominoes/src/main/java/java/game/tetrominoes/enums/Tetrominoes.java:85-87 | every degree's table of every kind holds four offsets |
| Tetromino.InitVertexes | tetrominoes/src/main/java/java/game/tetrominoes/enums/Tetrominoes.java:44-64 | the table-building loop fills every degree's slot with `Vertexes` of that degree; each slot it reads was filled earlier |
| Tetromino.TurnTable | tetrominoes/src/main/java/java/game/tetrominoes/data/Tetrominoes.java:52-58 | the inner loop builds the quarter turn of the source table, element by element |
| Tetromino.QuarterTurnAllFourTimes | tetrominoes/src/main/java/java/game/tetrominoes/enums/Tetrominoes.java:61 | four quarter turns give back the table |
| Tetromino.TurnIsLeftStep | tetrominoes/src/main/java/java/game/tetrominoes/data/Tetrominoes.java:40-60 | for any base table, turning the table of any degree gives the table one step to the left; turning the 270 table gives back the base table |
| Tetromino.QuarterTurnAllDistinct | tetrominoes/src/main/java/java/game/tetrominoes/enums/Tetrominoes.java:60-62 | the quarter turn keeps the offsets of a table pairwise different |
| Tetromino.Degree0Distinct | tetrominoes/src/main/java/java/game/tetrominoes/enums/Tetrominoes.java:11-24 | the four declared offsets of every kind are four different cells |
| Tetromino.TurnedDistinct | tetrominoes/src/main/java/java/game/tetrominoes/enums/Tetrominoes.java:44-64 | every table derived from a base of pairwise different offsets holds pairwise different offsets |
| Tetromino.MaxY | tetrominoes/src/main/java/java/game/tetrominoes/data/Tetrominoes.java:79-87 | the result is at least every y of the table and equal to one of them |
| Tetromino.GetInitialMaxY | tetrominoes/src/main/java/java/game/tetrominoes/enums/Tetrominoes.java:103-111 | the running-maximum loop returns the maximum y of the degree-0 table |
| Tetromino.InitialMaxYValues | tetrominoes/src/main/java/java/game/tetrominoes/enums/Tetrominoes.java:103-111 | the maximum is 2 for the line and 1 for every other kind |
| Pieces.Footprint | tetrominoes/src/main/java/java/game/tetrominoes/data/Board.java:85-91 | the cell of each offset is the origin translated by that offset |
| Pieces.FootprintDistinct | tetrominoes/src/main/java/java/game/tetrominoes/data/Board.java:126-128 | different offsets land on different cells |
| Pieces.RowsSize | tetrominoes/src/main/java/javagame/tetrominoes/data/Shape.java:155-158 | a non-empty footprint touches at least one row and no more rows than it has cells |
| Pieces.SpawnTopRow | tetrominoes/src/main/java/javagame/tetrominoes/data/Shape.java:42 | lowering the spawn point by the highest offset puts the top cell of a new piece on the spawn row |
| Pieces.DescendingOrder | tetrominoes/src/main/java/javagame/tetrominoes/data/Shape.java:160-164 | the list holds exactly the elements of the set |
| Pieces.DescendingOrderSpec | tetrominoes/src/main/java/javagame/tetrominoes/data/Shape.java:160-164 | the list has as many entries as the set has elements and is strictly descending |
| Pieces.CollectRows | tetrominoes/src/main/java/javagame/tetrominoes/data/Shape.java:155-158 | the set-building loop yields exactly the rows of the footprint |
| Pieces.SortDescending | tetrominoes/src/main/java/javagame/tetrominoes/data/Shape.java:160-164 | sorting and reversing yields the descending order of the set |
| Pieces.Shape.Spawn | tetrominoes/src/main/java/javagame/tetrominoes/data/Shape.java:34-46 | a new piece is at degree 0, its origin is the spawn point lowered by the kind's highest offset, and its previous origin equals its origin |
| Pieces.Shape.SpawnUnshifted | tetrominoes/src/main/java/com/xinxin/tetrominoes/Shape.java:20-31 | the same, except that the previous origin stays at the unlowered spawn point |
| Pieces.Shape.GetVertexes | tetrominoes/src/main/java/javagame/tetrominoes/data/Shape.java:143-145 | the current table holds four different offsets |
| Pieces.Shape.ComputeRotation | tetrominoes/src/main/java/javagame/tetrominoes/data/Shape.java:85-93 | the candidate table holds four different offsets; `MoveAndRotate` commits it |
| Pieces.Shape.ComputeMovable | tetrominoes/src/main/java/javagame/tetrominoes/data/Shape.java:55-76 | a fresh Coords holding the origin moved by (−1, 0), (1, 0), (0, −1) or (0, 0); the piece is not changed |
| Pieces.Shape.CurrentCells | tetrominoes/src/main/java/java/game/tetrominoes/data/Board.java:123-128 | the piece covers four different cells |
| Pieces.Shape.CandidateCells | tetrominoes/src/main/java/java/game/tetrominoes/data/Board.java:82-91 | the candidate footprint is four different cells |
| Pieces.Shape.MoveAndRotate | tetrominoes/src/main/java/javagame/tetrominoes/data/Shape.java:103-136 | the old origin and offsets become the previous ones; the new origin equals the earlier `ComputeMovable(m)`, the new offsets the earlier `ComputeRotation(r)`, and the new cells the earlier candidate cells; the degree changes only for a real rotation |
| Pieces.Shape.GetAllY | tetrominoes/src/main/java/javagame/tetrominoes/data/Shape.java:151-165 | exactly the rows the piece touches, strictly descending, 1 to 4 of them |
| Playfield.EmptyGrid | tetrominoes/src/main/java/java/game/tetrominoes/data/Board.java:53-57 | every cell of the 10 × 22 grid is empty |
| Playfield.Erase | tetrominoes/src/main/java/java/game/tetrominoes/data/Board.java:106-120 | every in-bounds cell of the footprint is emptied whoever holds it; every other cell is kept |
| Playfield.Write | tetrominoes/src/main/java/java/game/tetrominoes/data/Board.java:122-141 | every cell of the footprint holds the piece; every other cell is kept |
| Playfield.CommitSucceeds | tetrominoes/src/main/java/java/game/tetrominoes/data/Board.java:130-138 | if the piece holds no cell outside its footprint and the move check passed, then after the erase every target is in bounds and empty, and after the write the piece holds exactly its new footprint |
| Playfield.CommitKeepsOtherPieces | tetrominoes/src/main/java/java/game/tetrominoes/data/Board.java:105-144 | after an accepted commit, every cell of another piece outside the erased footprint is kept |
| Playfield.SpawnCommitErasesForeignCell | tetrominoes/src/main/java/java/game/tetrominoes/data/Board.java:110-119 | on a concrete board, a new piece's first commit deletes a cell of another piece under its spawn footprint |
| Playfield.Collapse | tetrominoes/src/main/java/java/game/tetrominoes/data/Board.java:186-196 | rows below y are kept, each row from y up takes the row above it, and the top row is empty |
| Playfield.ClearStep | tetrominoes/src/main/java/java/game/tetrominoes/data/Board.java:178-198 | reports true if and only if row y is full; a non-full row leaves the grid as it was; rows below y never change; after a clear the top row is empty |
| Playfield.ClearRows | tetrominoes/src/main/java/java/game/tetrominoes/data/Board.java:149-154 | clearing a list of rows removes at most as many rows as the list holds |
| Playfield.ClearRowsKeepsLowerRows | tetrominoes/src/main/java/java/game/tetrominoes/data/Board.java:149-154 | clearing rows from the top down never changes a row below the last row visited |
| Playfield.ClearRowsCountsFullRows | tetrominoes/src/main/java/java/game/tetrominoes/data/Board.java:147-154 | for a strictly descending row list, the number of rows removed is the number of them that were full beforehand |
| Playfield.ScoreDelta | tetrominoes/src/main/java/java/game/tetrominoes/data/Board.java:157-173 | every call scores at least 1, and clearing n rows (1 to 4) scores at least 50·n |
| Playfield.ScoreDeltaMonotone | tetrominoes/src/main/java/java/game/tetrominoes/data/Board.java:157-173 | clearing more rows at once never scores less |
| Boards.Board.constructor | tetrominoes/src/main/java/java/game/tetrominoes/data/Board.java:35-47 | an empty board with both counters 0, no piece, and the spawn point (5, 21) |
| Boards.Board.ClearBoard | tetrominoes/src/main/java/java/game/tetrominoes/data/Board.java:49-58 | every cell is empty and both counters are 0 |
| Boards.Board.NewShap | tetrominoes/src/main/java/java/game/tetrominoes/data/Board.java:60-62 | a fresh degree-0 piece of the given kind at the spawn point (5, 21) lowered by the kind's highest offset; the grid is untouched and no cell holds the new piece |
| Boards.Board.CheckMovable | tetrominoes/src/main/java/java/game/tetrominoes/data/Board.java:79-103 | true if and only if every candidate cell is in bounds and either empty or held by the piece itself |
| Boards.Board.AddOrUpdateShape | tetrominoes/src/main/java/java/game/tetrominoes/data/Board.java:105-144 | true if and only if every target is in bounds and empty after the erase; on true, the grid is the erase followed by the whole write; on false, the erase followed by the write of the cells before the first blocked one |
| Boards.Board.EraseFootprint | tetrominoes/src/main/java/java/game/tetrominoes/data/Board.java:106-120 | the array becomes `Erase` of the old grid |
| Boards.Board.WriteFootprint | tetrominoes/src/main/java/java/game/tetrominoes/data/Board.java:122-142 | true if and only if every footprint cell is in bounds and empty; on true, the array becomes `Write` of the footprint; on false, the write of the cells before the first cell that is out of bounds or occupied |
| Boards.Board.MoveAndCommit | tetrominoes/src/main/java/java/game/tetrominoes/data/Board.java:66-69 | the piece takes its candidate cells and its previous footprint becomes its old current footprint; the grid is the old grid with the old footprint erased and the new one written up to its first cell that is then out of bounds or occupied (all of it when there is none); there is none when the piece held no cell outside its old footprint |
| Boards.Board.TryToMoveShape | tetrominoes/src/main/java/com/xinxin/tetrominoes/Board.java:45-58 | accepted if and only if the move check passes; a refusal changes neither grid, score nor piece; an acceptance moves the piece to its candidate cells, makes its old cells its previous footprint, adds 1 to the score exactly on Down, and commits as `MoveAndCommit` states |
| Boards.Board.CheckLineFullAndClear | tetrominoes/src/main/java/java/game/tetrominoes/data/Board.java:178-198 | true if and only if row y was full; the array becomes `ClearStep` of the old grid, so a non-full row leaves it unchanged |
| Boards.Board.ClearRowsInOrder | tetrominoes/src/main/java/java/game/tetrominoes/data/Board.java:149-154 | the array and the count become `ClearRows` of the old grid and the list |
| Boards.Board.ClearFullLinesOf | tetrominoes/src/main/java/com/xinxin/tetrominoes/Board.java:127-157 | rows are cleared in descending order; the count is the number of touched rows that were full, 0 to 4; the count is added to the cleared lines and the table score to the score |
| Boards.Board.ClearFullLines | tetrominoes/src/main/java/java/game/tetrominoes/data/Board.java:146-176 | the same for the falling piece |

## Left out

- The Swing panels (`BoardPanel`), the `Tetris` windows and `App` are not part of this model.
  That includes the settle-and-respawn loop of the panel.
- `buidRandomTetrominoes` draws from a clock-seeded `java.util.Random`. The model takes the
  drawn index (`KindAt`) or the kind (`NewShap`, `Shape.Spawn`) as an input.
- Colours (`getColor`), `toString`, the `logShap` and `println` diagnostics, `Serializable`
  and `synchronized` are presentation or concurrency concerns. The engine is modelled
  sequentially.
- The board size is fixed at 10 × 22. The two-argument `Board(w, h)` constructor is not
  modelled. The source checks bounds against the constants 10 × 22 even when the array has
  other sizes.
- `scores`, `linesOfCleared` and the coordinates of `Coords` are unbounded integers. Java's
  32-bit wrap-around is not modelled, neither for the counters nor for `moveX` and `moveY`
  (so `Geometry.Coords.MoveX`, `Geometry.Coords.MoveY` and `Geometry.OppositeMovesCancel`
  hold for all integers, where Java would wrap at the ends of the int range).
- A `null` rotation direction is not a separate value. The Shape methods `computeRotation`
  and `moveAndRotate` treat it like `NoRotation`, and they check for it before calling
  `RotationDegree.rotate`, which would throw on it. A `null` movement direction would
  throw in the `switch`; it is not modelled.
- The getters (`getScores`, `getLinesOfCleared`, `getCurCoords`, `getPreCoords`,
  `getPreVertexes`, `getBoardWidth`, `getBoardHight`) are reads of the fields.
- The Tetrominoes tables are shared and never written after class initialisation. They are
  the function `Tetromino.Vertexes`; `getVertexes(d)` is that function.
- The com.xinxin copy's own `Tetrominoes` and `Coords` classes are not part of this model.
  They are taken to behave as the `java.game` and `javagame` ones.
- The `java.game` `tryToMove` is `Boards.Board.TryToMoveShape` applied to `curShape`. Its
  failure when `curShape` is `null` is not modelled.
- Pieces are compared by identity. `Shape` does not override `equals`, so `shapeAt.equals(shape)`
  is reference equality.
- Boards.Board.ClearFullLinesOf: requires every touched row to lie on the board. The source
  would throw an array index exception for any other row, and a piece that only moves when
  the move check accepts never leaves the board.
- Boards.Board.ClearFullLines: has the same requirement, and also requires a falling piece.
- Boards.Board.MoveAndCommit: requires the piece's two `Coords` objects to be other objects
  than the board's spawn point. Both `Shape` constructors allocate their own `Coords`
  (javagame/tetrominoes/data/Shape.java:34-36), so every piece meets this.
- Boards.Board.TryToMoveShape: has the same requirement, for the same reason.
- Boards.Board.WriteFootprint: requires the offsets to be pairwise different. Every table
  satisfies this (`Tetromino.Degree0Distinct` and `Tetromino.TurnedDistinct`).
- Playfield.ScoreDelta: its contract gives the lower bound 50·n and the monotonicity lemma.
  The exact table values are stated by the score update in `ClearFullLinesOf` through the
  function itself.

=== FILE: boards.dfy ===
/**
  * The board: a fixed 10 x 22 array of cells, each null or the piece occupying it, plus the
  * count of cleared lines and the score.
  *
  * The java.game copy keeps the falling piece in the field `curShape`; the com.xinxin copy
  * takes it as a parameter. Both are covered: `TryToMoveShape` and `ClearFullLinesOf` take
  * the piece; the java.game `tryToMove` is `TryToMoveShape` applied to `curShape`, and
  * `ClearFullLines` applies `ClearFullLinesOf` to `curShape`.
  *
  * Every method is specified through `Cells()`, the grid the array denotes, and the grid
  * functions of the Playfield module.
  */
module Boards {
  import opened Geometry
  import opened Rotation
  import opened Tetromino
  import opened Pieces
  import opened Playfield

  class Board {
    const board: array2<Shape?>
    /** Where new pieces appear: the middle column of the top row. */
    const initialCoords: Coords
    var curShape: Shape?
    var linesOfCleared: int
    var scores: int

    /** The array has the board's size, the counters are not negative and the spawn point is fixed. */
    ghost predicate Valid()
      reads this, initialCoords
    {
      board.Length0 == Width && board.Length1 == Height && 0 <= linesOfCleared && 0 <= scores &&
      initialCoords.Value() == Point(Width / 2, Height - 1)
    }

    /** The grid the array denotes. */
    ghost function Cells(): (g: Grid)
      requires board.Length0 == Width && board.Length1 == Height
      reads board
      ensures IsGrid(g)
      ensures forall x, y :: 0 <= x < Width && 0 <= y < Height ==> g[x][y] == board[x, y]
    {
      seq(Width, x requires 0 <= x < Width reads board =>
        seq(Height, y requires 0 <= y < Height reads board => board[x, y]))
    }

    /** An empty board with no lines cleared, no score and no falling piece. */
    constructor ()
      ensures Valid() && fresh(board) && fresh(initialCoords)
      ensures Cells() == EmptyGrid() && linesOfCleared == 0 && scores == 0 && curShape == null
    {
      initialCoords := new Coords(Width / 2, Height - 1);
      board := new Shape?[Width, Height];
      curShape := null;
      linesOfCleared, scores := 0, 0;
      new;
      ClearBoard();
    }

    /** Resets both counters and empties every cell. */
    method ClearBoard()
      requires Valid()
      modifies this`linesOfCleared, this`scores, board
      ensures Valid() && linesOfCleared == 0 && scores == 0
      ensures Cells() == EmptyGrid()
    {
      linesOfCleared := 0;
      scores := 0;
      for i := 0 to Width
        invariant linesOfCleared == 0 && scores == 0
        invariant forall x, y :: 0 <= x < i && 0 <= y < Height ==> board[x, y] == null
      {
        for j := 0 to Height
          invariant linesOfCleared == 0 && scores == 0
          invariant forall x, y :: 0 <= x < i && 0 <= y < Height ==> board[x, y] == null
          invariant forall y :: 0 <= y < j ==> board[i, y] == null
        {
          board[i, j] := null;
        }
      }
      GridsEqual(Cells(), EmptyGrid());
    }

    /**
      * Spawns a piece of kind `k` (the random draw is an input here) at the spawn point, the
      * middle column of the top row, lowered so that its highest cell is on the top row. The
      * grid is not touched, so the new piece holds no cell yet.
      */
    method NewShap(k: Kind)
      requires Valid()
      modifies this`curShape
      ensures Valid() && curShape != null && curShape.Valid()
      ensures fresh(curShape) && fresh(curShape.curCoords) && fresh(curShape.preCoords)
      ensures curShape.kind == k && curShape.rotationDegree == Degree0
      ensures curShape.CurrentCells() == Footprint(Point(Width / 2, Height - 1 - InitialMaxY(k)), Vertexes(k, Degree0))
      ensures curShape.PreviousCells() == curShape.CurrentCells()
      ensures Cells() == old(Cells()) && OnlyAt(Cells(), curShape, curShape.CurrentCells())
      ensures forall x, y :: 0 <= x < Width && 0 <= y < Height ==> board[x, y] != curShape
    {
      curShape := new Shape.Spawn(initialCoords, k);
      forall x, y | 0 <= x < Width && 0 <= y < Height
        ensures board[x, y] != curShape
      {
        assert old(allocated(board[x, y]));
      }
    }

    /**
      * The move check: every cell the piece would cover after the move is inside the board
      * and either empty or held by the piece itself (pieces are compared by identity).
      */
    method CheckMovable(shape: Shape, m: MovementDirection, r: RotationDirection) returns (ok: bool)
      requires Valid()
      ensures ok == Placeable(Cells(), shape, shape.CandidateCells(m, r))
    {
      var targetBaseCoords := shape.ComputeMovable(m);
      var targetRotationVertexes := shape.ComputeRotation(r);
      var baseX, baseY := targetBaseCoords.x, targetBaseCoords.y;
      ghost var cells := shape.CandidateCells(m, r);
      for i := 0 to |targetRotationVertexes|
        invariant forall j :: 0 <= j < i ==>
                    InBounds(cells[j]) && (board[cells[j].x, cells[j].y] == null || board[cells[j].x, cells[j].y] == shape)
      {
        var x := targetRotationVertexes[i].x + baseX;
        var y := targetRotationVertexes[i].y + baseY;
        assert cells[i] == Point(x, y);
        if x < 0 || x >= Width || y < 0 || y >= Height {
          return false;
        }
        var shapeAt := board[x, y];
        if shapeAt != null && shapeAt != shape {
          return false;
        }
      }
      return true;
    }

    /**
      * The commit: empties the in-bounds cells of the previous footprint (whoever holds them),
      * then writes the piece into its current footprint cell by cell, stopping with false at
      * the first cell that is out of bounds or occupied.
      */
    method AddOrUpdateShape(shape: Shape) returns (ok: bool)
      requires Valid()
      modifies board
      ensures Valid()
      ensures ok == WriteClear(Erase(old(Cells()), shape.PreviousCells()), shape.CurrentCells())
      ensures ok ==> Cells() == Write(Erase(old(Cells()), shape.PreviousCells()), shape, shape.CurrentCells())
      ensures !ok ==> exists k :: FirstBlocked(Erase(old(Cells()), shape.PreviousCells()), shape.CurrentCells(), k) &&
                        Cells() == Write(Erase(old(Cells()), shape.PreviousCells()), shape, shape.CurrentCells()[..k])
    {
      EraseFootprint(shape.preCoords.Value(), shape.preVertexes);
      ok := WriteFootprint(shape, shape.curCoords.Value(), shape.GetVertexes());
    }

    /** The first loop of `addOrUpdateShape`: empties every in-bounds cell of the footprint. */
    method EraseFootprint(origin: Point, offsets: seq<Point>)
      requires Valid()
      modifies board
      ensures Valid()
      ensures Cells() == Erase(old(Cells()), Footprint(origin, offsets))
    {
      ghost var g0 := Cells();
      ghost var pre := Footprint(origin, offsets);
      var preX, preY := origin.x, origin.y;
      for i := 0 to |offsets|
        invariant forall x, y :: 0 <= x < Width && 0 <= y < Height ==>
                    board[x, y] == if Point(x, y) in pre[..i] then null else g0[x][y]
      {
        var x := offsets[i].x + preX;
        var y := offsets[i].y + preY;
        assert pre[..i + 1] == pre[..i] + [Point(x, y)];
        if x < 0 || x >= Width || y < 0 || y >= Height {
          continue;
        }
        board[x, y] := null;
      }
      assert pre[..|offsets|] == pre;
      GridsEqual(Cells(), Erase(g0, pre));
    }

    /**
      * The second loop of `addOrUpdateShape`: writes `shape` into the footprint cell by cell,
      * stopping with false at the first cell that is out of bounds or occupied.
      */
    method WriteFootprint(shape: Shape, origin: Point, offsets: seq<Point>) returns (ok: bool)
      requires Valid() && Distinct(offsets)
      modifies board
      ensures Valid()
      ensures ok == WriteClear(old(Cells()), Footprint(origin, offsets))
      ensures ok ==> Cells() == Write(old(Cells()), shape, Footprint(origin, offsets))
      ensures !ok ==> exists k :: FirstBlocked(old(Cells()), Footprint(origin, offsets), k) &&
                        Cells() == Write(old(Cells()), shape, Footprint(origin, offsets)[..k])
    {
      ghost var e := Cells();
      ghost var cur := Footprint(origin, offsets);
      FootprintDistinct(origin, offsets);
      var curX, curY := origin.x, origin.y;
      for i := 0 to |offsets|
        invariant forall x, y :: 0 <= x < Width && 0 <= y < Height ==>
                    board[x, y] == if Point(x, y) in cur[..i] then shape else e[x][y]
        invariant WriteClear(e, cur[..i])
      {
        var x := offsets[i].x + curX;
        var y := offsets[i].y + curY;
        assert cur[i] == Point(x, y);
        assert cur[..i + 1] == cur[..i] + [cur[i]];
        if x < 0 || x >= Width || y < 0 || y >= Height || board[x, y] != null {
          assert cur[i] !in cur[..i];
          GridsEqual(Cells(), Write(e, shape, cur[..i]));
          return false;
        }
        board[x, y] := shape;
      }
      assert cur[..|offsets|] == cur;
      GridsEqual(Cells(), Write(e, shape, cur));
      return true;
    }

    /**
      * The two steps of `tryToMove` after an accepted check: `moveAndRotate`, then the
      * commit, whose result is not looked at. The piece moves to the candidate footprint;
      * the grid has the old footprint erased and the new one written up to its first cell that
      * is then out of bounds or occupied, and all of it when the piece held no cell outside
      * its old footprint.
      */
    method MoveAndCommit(shape: Shape, m: MovementDirection, r: RotationDirection)
      requires Valid() && shape.Valid()
      requires shape.curCoords != initialCoords && shape.preCoords != initialCoords
      requires Placeable(Cells(), shape, shape.CandidateCells(m, r))
      modifies board, shape, shape.curCoords, shape.preCoords
      ensures Valid() && shape.Valid()
      ensures shape.CurrentCells() == old(shape.CandidateCells(m, r))
      ensures shape.PreviousCells() == old(shape.CurrentCells())
      ensures shape.rotationDegree == Rotate(old(shape.rotationDegree), r)
      ensures CommitPrefix(Cells(), old(Cells()), shape, old(shape.CurrentCells()), shape.CurrentCells())
      ensures CommitStopsAtFirstBlocked(Cells(), old(Cells()), shape, old(shape.CurrentCells()), shape.CurrentCells())
      ensures old(OnlyAt(Cells(), shape, shape.CurrentCells())) ==>
                Cells() == Write(Erase(old(Cells()), old(shape.CurrentCells())), shape, shape.CurrentCells()) &&
                HoldsExactly(Cells(), shape, shape.CurrentCells())
    {
      ghost var g0 := Cells();
      ghost var cur0 := shape.CurrentCells();
      ghost var cand := shape.CandidateCells(m, r);
      shape.MoveAndRotate(m, r);
      assert Cells() == g0;
      var written := AddOrUpdateShape(shape);
      if written {
        assert cand[..|cand|] == cand;
      }
      if OnlyAt(g0, shape, cur0) {
        CommitSucceeds(g0, shape, cur0, cand);
      }
    }

    /**
      * `tryToMove` of the com.xinxin copy. An accepted move commits the piece and scores 1
      * point for a step down; a refused move changes nothing. When the piece held no cell
      * outside its footprint, the commit is complete and the piece afterwards holds exactly
      * its new footprint.
      */
    method TryToMoveShape(shape: Shape, m: MovementDirection, r: RotationDirection) returns (ok: bool)
      requires Valid() && shape.Valid()
      requires shape.curCoords != initialCoords && shape.preCoords != initialCoords
      modifies this`scores, board, shape, shape.curCoords, shape.preCoords
      ensures Valid() && shape.Valid()
      ensures ok == old(Placeable(Cells(), shape, shape.CandidateCells(m, r)))
      ensures !ok ==> Cells() == old(Cells()) && scores == old(scores)
      ensures !ok ==> unchanged(shape, shape.curCoords, shape.preCoords)
      ensures ok ==> scores == old(scores) + (if m == MovementDirection.Down then 1 else 0)
      ensures ok ==> shape.CurrentCells() == old(shape.CandidateCells(m, r))
      ensures ok ==> shape.PreviousCells() == old(shape.CurrentCells())
      ensures ok ==> shape.rotationDegree == Rotate(old(shape.rotationDegree), r)
      ensures ok ==> CommitPrefix(Cells(), old(Cells()), shape, old(shape.CurrentCells()), shape.CurrentCells())
      ensures ok ==> CommitStopsAtFirstBlocked(Cells(), old(Cells()), shape, old(shape.CurrentCells()), shape.CurrentCells())
      ensures ok && old(OnlyAt(Cells(), shape, shape.CurrentCells())) ==>
                Cells() == Write(Erase(old(Cells()), old(shape.CurrentCells())), shape, shape.CurrentCells()) &&
                HoldsExactly(Cells(), shape, shape.CurrentCells())
    {
      ghost var g0 := Cells();
      ghost var cur0 := shape.CurrentCells();
      ok := CheckMovable(shape, m, r);
      if ok {
        MoveAndCommit(shape, m, r);
        ghost var g1 := Cells();
        ghost var cur1 := shape.CurrentCells();
        assert CommitPrefix(g1, g0, shape, cur0, cur1);
        assert CommitStopsAtFirstBlocked(g1, g0, shape, cur0, cur1);
        if m == MovementDirection.Down {
          scores := scores + 1;
        }
        assert Cells() == g1 && shape.CurrentCells() == cur1;
      }
    }

    /**
      * `checkLineFullAndClear`: when every cell of row `y` is occupied, empties the row, moves
      * every row above it down by one (emptying the top row) and answers true; otherwise
      * changes nothing and answers false.
      */
    method CheckLineFullAndClear(y: int) returns (cleared: bool)
      requires Valid() && 0 <= y < Height
      modifies board
      ensures Valid()
      ensures cleared == RowFull(old(Cells()), y)
      ensures Cells() == ClearStep(old(Cells()), y).0
    {
      for x := 0 to Width
        invariant forall a :: 0 <= a < x ==> board[a, y] != null
      {
        if board[x, y] == null {
          return false;
        }
      }

      ghost var g0 := Cells();
      for x := 0 to Width
        invariant forall a, b :: 0 <= a < Width && 0 <= b < Height ==>
                    board[a, b] == if b == y && a < x then null else g0[a][b]
      {
        board[x, y] := null;
      }

      var maxY := Height - 1;
      var dy := y;
      while dy < maxY
        invariant y <= dy <= maxY
        invariant forall a, b {:trigger board[a, b]} :: 0 <= a < Width && 0 <= b < Height ==>
                    board[a, b] == if b < y then g0[a][b]
                                   else if b < dy then g0[a][b + 1]
                                   else if b == dy then null
                                   else g0[a][b]
      {
        for x := 0 to Width
          invariant forall a, b {:trigger board[a, b]} :: 0 <= a < Width && 0 <= b < Height ==>
                      board[a, b] == if b < y then g0[a][b]
                                     else if b < dy then g0[a][b + 1]
                                     else if b == dy then (if a < x then g0[a][dy + 1] else null)
                                     else if b == dy + 1 then (if a < x then null else g0[a][b])
                                     else g0[a][b]
        {
          board[x, dy] := board[x, dy + 1];
          board[x, dy + 1] := null;
        }
        dy := dy + 1;
      }
      GridsEqual(Cells(), Collapse(g0, y));
      return true;
    }

    /**
      * The loop of `clearFullLines`: checks and clears the rows of `yList` in the given order
      * and counts the rows removed.
      */
    method ClearRowsInOrder(yList: seq<int>) returns (cleardLines: int)
      requires Valid() && RowsInRange(yList)
      modifies board
      ensures Valid()
      ensures Cells() == ClearRows(old(Cells()), yList).0
      ensures cleardLines == ClearRows(old(Cells()), yList).1
    {
      ghost var g0 := Cells();
      cleardLines := 0;
      for i := 0 to |yList|
        invariant Cells() == ClearRows(g0, yList[..i]).0 && cleardLines == ClearRows(g0, yList[..i]).1
      {
        ClearRowsStep(g0, yList, i);
        var c := CheckLineFullAndClear(yList[i]);
        if c {
          cleardLines := cleardLines + 1;
        }
      }
      assert yList[..|yList|] == yList;
    }

    /**
      * `clearFullLines` of the com.xinxin copy: visits the rows the piece touches from the
      * highest to the lowest, clears each full one, adds the count to the cleared lines and
      * scores 500, 200, 100 or 50 for 4, 3, 2 or 1 rows, and 1 when no row was full.
      */
    method ClearFullLinesOf(shape: Shape) returns (cleared: int)
      requires Valid()
      requires forall y :: y in shape.TouchedRows() ==> 0 <= y < Height
      modifies this`linesOfCleared, this`scores, board
      ensures Valid()
      ensures Cells() == ClearRows(old(Cells()), DescendingOrder(shape.TouchedRows())).0
      ensures cleared == FullCount(old(Cells()), DescendingOrder(shape.TouchedRows()))
      ensures 0 <= cleared <= 4
      ensures linesOfCleared == old(linesOfCleared) + cleared
      ensures scores == old(scores) + ScoreDelta(cleared)
    {
      var yList := shape.GetAllY();
      ClearRowsCountsFullRows(Cells(), yList);
      var cleardLines := ClearRowsInOrder(yList);

      linesOfCleared := linesOfCleared + cleardLines;
      scores := scores + ScoreDelta(cleardLines);
      cleared := cleardLines;
    }

    /** `clearFullLines` of the java.game copy: the same, for the falling piece. */
    method ClearFullLines() returns (cleared: int)
      requires Valid() && curShape != null
      requires forall y :: y in curShape.TouchedRows() ==> 0 <= y < Height
      modifies this`linesOfCleared, this`scores, board
      ensures Valid()
      ensures Cells() == ClearRows(old(Cells()), DescendingOrder(curShape.TouchedRows())).0
      ensures cleared == FullCount(old(Cells()), DescendingOrder(curShape.TouchedRows()))
      ensures 0 <= cleared <= 4
      ensures linesOfCleared == old(linesOfCleared) + cleared
      ensures scores == old(scores) + ScoreDelta(cleared)
    {
      cleared := ClearFullLinesOf(curShape);
    }
  }
}

=== FILE: geometry.dfy ===
/**
  * Points and the mutable coordinate object of the engine.
  *
  * The engine's Coords objects are mutable: moveX, moveY and copyFrom overwrite the two
  * fields in place and return the receiver, so calls chain (`c.copyFrom(o).moveX(dx).moveY(dy)`).
  * Offsets in the rotation tables and candidate positions are never mutated after they are
  * made, so they are modelled as `Point` values.
  */
module Geometry {

  /** A cell address or an offset from a piece's origin; y grows upwards (row 0 is the bottom). */
  datatype Point = Point(x: int, y: int)

  /** `p` moved by `(dx, dy)`. */
  function Translate(p: Point, dx: int, dy: int): Point
  {
    Point(p.x + dx, p.y + dy)
  }

  /** No point occurs twice in `s`. */
  predicate Distinct(s: seq<Point>)
  {
    forall i, j :: 0 <= i < j < |s| ==> s[i] != s[j]
  }

  class Coords {
    var x: int
    var y: int

    /** The no-argument constructor: both int fields keep Java's default 0. */
    constructor Origin()
      ensures x == 0 && y == 0
    {
      x, y := 0, 0;
    }

    constructor (x0: int, y0: int)
      ensures x == x0 && y == y0
    {
      x, y := x0, y0;
    }

    /** The point this object denotes now. */
    function Value(): Point
      reads this
    {
      Point(x, y)
    }

    method MoveX(dx: int) returns (self: Coords)
      modifies this
      ensures self == this
      ensures x == old(x) + dx && y == old(y)
    {
      x := x + dx;
      self := this;
    }

    method MoveY(dy: int) returns (self: Coords)
      modifies this
      ensures self == this
      ensures y == old(y) + dy && x == old(x)
    {
      y := y + dy;
      self := this;
    }

    /** Copies both fields of `c`; `c` itself is left as it was (also when `c` is this object). */
    method CopyFrom(c: Coords) returns (self: Coords)
      modifies this
      ensures self == this
      ensures Value() == old(c.Value())
      ensures c.Value() == old(c.Value())
    {
      x := c.x;
      y := c.y;
      self := this;
    }
  }

  /** The chain `c.moveX(dx).moveY(dy)` translates `c` by `(dx, dy)` and yields `c` itself. */
  method ChainTranslates(c: Coords, dx: int, dy: int) returns (r: Coords)
    modifies c
    ensures r == c
    ensures c.Value() == Translate(old(c.Value()), dx, dy)
  {
    r := c.MoveX(dx);
    r := r.MoveY(dy);
  }

  /** Moving along x then y ends where moving along y then x ends. */
  method MovesCommute(a: Coords, b: Coords, dx: int, dy: int)
    requires a != b && a.Value() == b.Value()
    modifies a, b
    ensures a.Value() == b.Value() == Translate(old(a.Value()), dx, dy)
  {
    var t := a.MoveX(dx);
    t := t.MoveY(dy);
    var u := b.MoveY(dy);
    u := u.MoveX(dx);
  }

  /** Opposite deltas cancel: `moveX(dx).moveY(dy).moveX(-dx).moveY(-dy)` restores the point. */
  method OppositeMovesCancel(c: Coords, dx: int, dy: int)
    modifies c
    ensures c.Value() == old(c.Value())
  {
    var t := c.MoveX(dx);
    t := t.MoveY(dy);
    t := t.MoveX(-dx);
    t := t.MoveY(-dy);
  }
}

=== FILE: pieces.dfy ===
/**
  * The falling piece (the engine's Shape class).
  *
  * A piece knows its kind, its current origin, its orientation, and the origin and offsets
  * it had before its last commit (the board erases that previous footprint when it writes
  * the new one). `ComputeMovable` and `ComputeRotation` predict a move without changing the
  * piece; `MoveAndRotate` is the only mutator and commits exactly what they predicted.
  */
module Pieces {
  import opened Geometry
  import opened Rotation
  import opened Tetromino

  datatype MovementDirection = Left | Right | Down | NoMovement

  /** The origin after one step in direction `m`; Down lowers y by one. */
  function Moved(origin: Point, m: MovementDirection): Point
  {
    match m
    case Left => Translate(origin, -1, 0)
    case Right => Translate(origin, 1, 0)
    case Down => Translate(origin, 0, -1)
    case NoMovement => origin
  }

  /** The absolute cells covered by `offsets` placed at `origin`. */
  function Footprint(origin: Point, offsets: seq<Point>): (cells: seq<Point>)
    ensures |cells| == |offsets|
    ensures forall i :: 0 <= i < |offsets| ==> cells[i] == Translate(origin, offsets[i].x, offsets[i].y)
  {
    seq(|offsets|, i requires 0 <= i < |offsets| => Translate(origin, offsets[i].x, offsets[i].y))
  }

  lemma FootprintDistinct(origin: Point, offsets: seq<Point>)
    requires Distinct(offsets)
    ensures Distinct(Footprint(origin, offsets))
  {
    var cells := Footprint(origin, offsets);
    forall i, j | 0 <= i < j < |cells|
      ensures cells[i] != cells[j]
    {
      assert offsets[i] != offsets[j];
    }
  }

  /** The rows (y values) a set of cells touches. */
  function Rows(cells: seq<Point>): set<int>
    decreases |cells|
  {
    if cells == [] then {} else Rows(cells[..|cells| - 1]) + {cells[|cells| - 1].y}
  }

  /** A non-empty footprint touches at least one row and never more rows than it has cells. */
  lemma {:induction false} RowsSize(cells: seq<Point>)
    ensures |Rows(cells)| <= |cells|
    ensures |cells| > 0 ==> |Rows(cells)| > 0
  {
    if |cells| > 0 {
      var init := cells[..|cells| - 1];
      RowsSize(init);
    }
  }

  /** The spawn placement puts the topmost cell of a degree-0 piece exactly on the spawn row. */
  lemma SpawnTopRow(k: Kind, spawn: Point)
    ensures MaxY(Footprint(Translate(spawn, 0, -InitialMaxY(k)), Vertexes(k, Degree0))) == spawn.y
  {
    var offsets := Vertexes(k, Degree0);
    var origin := Translate(spawn, 0, -InitialMaxY(k));
    var cells := Footprint(origin, offsets);
    var top := MaxY(cells);
    var j :| 0 <= j < |offsets| && offsets[j].y == InitialMaxY(k);
    assert cells[j].y == spawn.y;
    var i :| 0 <= i < |cells| && cells[i].y == top;
    assert offsets[i].y <= InitialMaxY(k);
  }

  predicate IsMaxOf(m: int, s: set<int>)
  {
    m in s && forall z :: z in s ==> z <= m
  }

  lemma {:induction false} MaxExists(s: set<int>)
    requires s != {}
    ensures exists m :: IsMaxOf(m, s)
    decreases s
  {
    if forall z :: z !in s {
      assert false;
    }
    var a :| a in s;
    if s - {a} == {} {
      forall z | z in s
        ensures z <= a
      {
        assert z !in s - {a};
      }
      assert IsMaxOf(a, s);
    } else {
      MaxExists(s - {a});
      var m :| IsMaxOf(m, s - {a});
      var top := if a > m then a else m;
      forall z | z in s
        ensures z <= top
      {
        if z != a {
          assert z in s - {a};
        }
      }
      assert IsMaxOf(top, s);
    }
  }

  /** The elements of `s` from the largest to the smallest. */
  ghost function DescendingOrder(s: set<int>): (r: seq<int>)
    ensures forall y :: y in r <==> y in s
    ensures forall i :: 0 <= i < |r| ==> r[i] in s
    decreases s
  {
    if s == {} then []
    else
      MaxExists(s);
      var m :| IsMaxOf(m, s);
      [m] + DescendingOrder(s - {m})
  }

  predicate StrictlyDescending(ys: seq<int>)
  {
    forall i, j :: 0 <= i < j < |ys| ==> ys[i] > ys[j]
  }

  lemma ConsDescending(m: int, rest: seq<int>)
    requires StrictlyDescending(rest)
    requires forall k :: 0 <= k < |rest| ==> rest[k] < m
    ensures StrictlyDescending([m] + rest)
  {
    var r := [m] + rest;
    forall i, j | 0 <= i < j < |r|
      ensures r[i] > r[j]
    {
      assert r[j] == rest[j - 1];
      if i > 0 {
        assert r[i] == rest[i - 1];
      }
    }
  }

  /** `DescendingOrder(s)` lists every element of `s` once, strictly descending. */
  lemma {:induction false} DescendingOrderSpec(s: set<int>)
    ensures |DescendingOrder(s)| == |s|
    ensures StrictlyDescending(DescendingOrder(s))
    decreases s
  {
    if s != {} {
      MaxExists(s);
      var m :| IsMaxOf(m, s);
      var rest := DescendingOrder(s - {m});
      DescendingOrderUnfold(s, m);
      DescendingOrderSpec(s - {m});
      assert |s - {m}| == |s| - 1;
      forall k | 0 <= k < |rest|
        ensures rest[k] < m
      {
        assert rest[k] in s - {m};
      }
      ConsDescending(m, rest);
    }
  }

  lemma DescendingOrderUnfold(s: set<int>, top: int)
    requires IsMaxOf(top, s)
    ensures DescendingOrder(s) == [top] + DescendingOrder(s - {top})
  {
  }

  /** The first loop of `getAllY`: the set of the rows of the offsets placed at `origin`. */
  method CollectRows(origin: Point, offsets: seq<Point>) returns (ySet: set<int>)
    ensures ySet == Rows(Footprint(origin, offsets))
  {
    ghost var cells := Footprint(origin, offsets);
    var baseY := origin.y;
    ySet := {};
    for i := 0 to |offsets|
      invariant ySet == Rows(cells[..i])
    {
      RowsSnoc(cells, i);
      ySet := ySet + {offsets[i].y + baseY};
    }
    assert cells[..|offsets|] == cells;
  }

  /**
    * `Collections.sort` followed by `Collections.reverse` on the distinct rows: the largest
    * remaining row is taken off the set, one at a time.
    */
  method SortDescending(ySet: set<int>) returns (ys: seq<int>)
    ensures ys == DescendingOrder(ySet)
  {
    ys := [];
    var rest := ySet;
    while rest != {}
      invariant ys + DescendingOrder(rest) == DescendingOrder(ySet)
      decreases rest
    {
      MaxExists(rest);
      var top :| IsMaxOf(top, rest);
      DescendingOrderUnfold(rest, top);
      ys := ys + [top];
      rest := rest - {top};
    }
  }

  lemma RowsSnoc(cells: seq<Point>, i: nat)
    requires i < |cells|
    ensures Rows(cells[..i + 1]) == Rows(cells[..i]) + {cells[i].y}
  {
    assert cells[..i + 1][..i] == cells[..i];
  }

  class Shape {
    const kind: Kind
    /** The current origin. */
    const curCoords: Coords
    /** The origin before the last commit. */
    const preCoords: Coords
    var rotationDegree: RotationDegree
    /** The offsets before the last commit. */
    var preVertexes: seq<Point>

    ghost predicate Valid()
      reads this
    {
      curCoords != preCoords
    }

    /**
      * The constructor of the javagame copy: both origins start as copies of the spawn point,
      * the current one is lowered by the kind's highest degree-0 offset, and the previous one
      * is then reset to that lowered origin.
      */
    constructor Spawn(initialCoords: Coords, k: Kind)
      ensures Valid() && fresh(curCoords) && fresh(preCoords)
      ensures kind == k && rotationDegree == Degree0 && preVertexes == Vertexes(k, Degree0)
      ensures curCoords.Value() == Translate(initialCoords.Value(), 0, -InitialMaxY(k))
      ensures preCoords.Value() == curCoords.Value()
    {
      var pre := new Coords.Origin();
      pre := pre.CopyFrom(initialCoords);
      var cur := new Coords.Origin();
      cur := cur.CopyFrom(initialCoords);
      kind := k;
      rotationDegree := Degree0;
      preVertexes := Vertexes(k, Degree0);
      var maxY := GetInitialMaxY(k);
      cur := cur.MoveY(-maxY);
      pre := pre.CopyFrom(cur);
      curCoords := cur;
      preCoords := pre;
    }

    /**
      * The constructor of the com.xinxin copy: the same, except that the previous origin stays
      * at the unlowered spawn point.
      */
    constructor SpawnUnshifted(initialCoords: Coords, k: Kind)
      ensures Valid() && fresh(curCoords) && fresh(preCoords)
      ensures kind == k && rotationDegree == Degree0 && preVertexes == Vertexes(k, Degree0)
      ensures curCoords.Value() == Translate(initialCoords.Value(), 0, -InitialMaxY(k))
      ensures preCoords.Value() == initialCoords.Value()
    {
      var pre := new Coords.Origin();
      pre := pre.CopyFrom(initialCoords);
      var cur := new Coords.Origin();
      cur := cur.CopyFrom(initialCoords);
      kind := k;
      rotationDegree := Degree0;
      preVertexes := Vertexes(k, Degree0);
      var maxY := GetInitialMaxY(k);
      cur := cur.MoveY(-maxY);
      curCoords := cur;
      preCoords := pre;
    }

    /** The offsets of the current orientation: four different cells. */
    function GetVertexes(): (vs: seq<Point>)
      reads this
      ensures |vs| == 4 && Distinct(vs)
    {
      Degree0Distinct(kind);
      TurnedDistinct(Degree0Offsets(kind), rotationDegree);
      Vertexes(kind, rotationDegree)
    }

    /** The offsets the piece would have after rotating in direction `r`; nothing changes. */
    function ComputeRotation(r: RotationDirection): (vs: seq<Point>)
      reads this
      ensures |vs| == 4 && Distinct(vs)
    {
      if r == RotationDirection.NoRotation then GetVertexes()
      else
        Degree0Distinct(kind);
        TurnedDistinct(Degree0Offsets(kind), Rotate(rotationDegree, r));
        Vertexes(kind, Rotate(rotationDegree, r))
    }

    /** A fresh Coords holding the origin after a step in direction `m`; the piece is not changed. */
    method ComputeMovable(m: MovementDirection) returns (c: Coords)
      ensures fresh(c)
      ensures c.Value() == Moved(curCoords.Value(), m)
    {
      var dx, dy := 0, 0;
      match m {
        case Left => dx := -1;
        case Right => dx := 1;
        case Down => dy := -1;
        case NoMovement =>
      }
      c := new Coords.Origin();
      var t := c.CopyFrom(curCoords);
      t := t.MoveX(dx);
      t := t.MoveY(dy);
    }

    /** The cells the piece covers now. */
    function CurrentCells(): (cells: seq<Point>)
      reads this, curCoords
      ensures |cells| == 4 && Distinct(cells)
    {
      FootprintDistinct(curCoords.Value(), GetVertexes());
      Footprint(curCoords.Value(), GetVertexes())
    }

    /** The cells the piece covered before its last commit. */
    function PreviousCells(): seq<Point>
      reads this, preCoords
    {
      Footprint(preCoords.Value(), preVertexes)
    }

    /** The cells the piece would cover after moving in direction `m` and rotating in direction `r`. */
    function CandidateCells(m: MovementDirection, r: RotationDirection): (cells: seq<Point>)
      reads this, curCoords
      ensures |cells| == 4 && Distinct(cells)
    {
      FootprintDistinct(Moved(curCoords.Value(), m), ComputeRotation(r));
      Footprint(Moved(curCoords.Value(), m), ComputeRotation(r))
    }

    /** The rows the piece touches now. */
    function TouchedRows(): set<int>
      reads this, curCoords
    {
      Rows(CurrentCells())
    }

    /**
      * Saves the current origin and offsets as the previous ones, then moves the origin and
      * (only for a real rotation) turns the orientation. What it commits is what
      * `ComputeMovable(m)` and `ComputeRotation(r)` predicted beforehand.
      */
    method MoveAndRotate(m: MovementDirection, r: RotationDirection)
      requires Valid()
      modifies this, curCoords, preCoords
      ensures Valid()
      ensures preCoords.Value() == old(curCoords.Value()) && preVertexes == old(GetVertexes())
      ensures curCoords.Value() == Moved(old(curCoords.Value()), m)
      ensures GetVertexes() == old(ComputeRotation(r))
      ensures rotationDegree == Rotate(old(rotationDegree), r)
      ensures CurrentCells() == old(CandidateCells(m, r))
      ensures PreviousCells() == old(CurrentCells())
    {
      var t := preCoords.CopyFrom(curCoords);
      preVertexes := GetVertexes();

      var dx, dy := 0, 0;
      match m {
        case Left => dx := -1;
        case Right => dx := 1;
        case Down => dy := -1;
        case NoMovement =>
      }
      t := curCoords.MoveX(dx);
      t := t.MoveY(dy);

      if r == RotationDirection.NoRotation {
        return;
      }
      rotationDegree := Rotate(rotationDegree, r);
    }

    /** The rows the piece touches, each once, from the highest to the lowest. */
    method GetAllY() returns (ys: seq<int>)
      ensures ys == DescendingOrder(TouchedRows())
      ensures forall y :: y in ys <==> y in TouchedRows()
      ensures StrictlyDescending(ys)
      ensures 1 <= |ys| <= 4
    {
      var ySet := CollectRows(curCoords.Value(), GetVertexes());
      ys := SortDescending(ySet);
      DescendingOrderSpec(ySet);
      RowsSize(CurrentCells());
    }
  }
}

=== FILE: playfield.dfy ===
/**
  * The playfield as a value: a 10 x 22 grid of cells, each empty (null) or holding the piece
  * that occupies it. Column x, row y is `g[x][y]`; row 0 is the bottom row.
  *
  * These functions are the specification of the board operations: the Board class works on
  * an array in place. Its clear methods and the erase half of a commit are proved to leave
  * exactly the grid these functions compute; the write half is proved to write the footprint
  * up to its first blocked cell, and all of it when no cell is blocked.
  */
module Playfield {
  import opened Geometry
  import opened Pieces

  const Width := 10
  const Height := 22

  type Grid = seq<seq<Shape?>>

  predicate IsGrid(g: Grid)
  {
    |g| == Width && forall x :: 0 <= x < Width ==> |g[x]| == Height
  }

  predicate InBounds(p: Point)
  {
    0 <= p.x < Width && 0 <= p.y < Height
  }

  function At(g: Grid, p: Point): Shape?
    requires IsGrid(g) && InBounds(p)
  {
    g[p.x][p.y]
  }

  function EmptyGrid(): (g: Grid)
    ensures IsGrid(g)
    ensures forall x, y :: 0 <= x < Width && 0 <= y < Height ==> g[x][y] == null
  {
    seq(Width, x => seq(Height, y => null))
  }

  /** Every in-bounds cell of `cells` emptied, whoever held it; out-of-bounds cells are skipped. */
  function Erase(g: Grid, cells: seq<Point>): (e: Grid)
    requires IsGrid(g)
    ensures IsGrid(e)
    ensures forall x, y :: 0 <= x < Width && 0 <= y < Height ==>
              e[x][y] == if Point(x, y) in cells then null else g[x][y]
  {
    seq(Width, x requires 0 <= x < Width =>
      seq(Height, y requires 0 <= y < Height => if Point(x, y) in cells then null else g[x][y]))
  }

  /** Every in-bounds cell of `cells` given to `s`. */
  function Write(g: Grid, s: Shape, cells: seq<Point>): (w: Grid)
    requires IsGrid(g)
    ensures IsGrid(w)
    ensures forall x, y :: 0 <= x < Width && 0 <= y < Height ==>
              w[x][y] == if Point(x, y) in cells then s else g[x][y]
  {
    seq(Width, x requires 0 <= x < Width =>
      seq(Height, y requires 0 <= y < Height => if Point(x, y) in cells then s else g[x][y]))
  }

  /** Two grids that agree on every cell are the same grid. */
  lemma GridsEqual(a: Grid, b: Grid)
    requires IsGrid(a) && IsGrid(b)
    requires forall x, y :: 0 <= x < Width && 0 <= y < Height ==> a[x][y] == b[x][y]
    ensures a == b
  {
    forall x | 0 <= x < Width
      ensures a[x] == b[x]
    {
      assert forall y :: 0 <= y < Height ==> a[x][y] == b[x][y];
    }
  }

  /** What the move check accepts: every cell in bounds and either empty or already held by `s` itself. */
  predicate Placeable(g: Grid, s: Shape, cells: seq<Point>)
    requires IsGrid(g)
  {
    forall i :: 0 <= i < |cells| ==> InBounds(cells[i]) && (At(g, cells[i]) == null || At(g, cells[i]) == s)
  }

  /** What the write loop needs to run to completion: every cell in bounds and empty. */
  predicate WriteClear(g: Grid, cells: seq<Point>)
    requires IsGrid(g)
  {
    forall i :: 0 <= i < |cells| ==> InBounds(cells[i]) && At(g, cells[i]) == null
  }

  /** `cells[k]` is the first cell of `cells` that is out of bounds or occupied in `g`. */
  predicate FirstBlocked(g: Grid, cells: seq<Point>, k: int)
    requires IsGrid(g)
  {
    0 <= k < |cells| && WriteClear(g, cells[..k]) && !(InBounds(cells[k]) && At(g, cells[k]) == null)
  }

  /** `s` holds no cell outside `cells`. */
  predicate OnlyAt(g: Grid, s: Shape, cells: seq<Point>)
    requires IsGrid(g)
  {
    forall x, y :: 0 <= x < Width && 0 <= y < Height && g[x][y] == s ==> Point(x, y) in cells
  }

  /** `s` holds exactly the cells of `cells`. */
  predicate HoldsExactly(g: Grid, s: Shape, cells: seq<Point>)
    requires IsGrid(g)
  {
    forall x, y :: 0 <= x < Width && 0 <= y < Height ==> (g[x][y] == s <==> Point(x, y) in cells)
  }

  /** `g` is `g0` with the cells of `pre` erased and a prefix of `cells` written for `s`. */
  predicate CommitPrefix(g: Grid, g0: Grid, s: Shape, pre: seq<Point>, cells: seq<Point>)
    requires IsGrid(g0)
  {
    exists k :: 0 <= k <= |cells| && g == Write(Erase(g0, pre), s, cells[..k])
  }

  /**
    * `g` is `g0` with the cells of `pre` erased and then `cells` written for `s` up to the
    * first cell that is out of bounds or occupied after the erase, all of them when there is
    * no such cell.
    */
  predicate CommitStopsAtFirstBlocked(g: Grid, g0: Grid, s: Shape, pre: seq<Point>, cells: seq<Point>)
    requires IsGrid(g0)
  {
    (WriteClear(Erase(g0, pre), cells) ==> g == Write(Erase(g0, pre), s, cells)) &&
    (!WriteClear(Erase(g0, pre), cells) ==>
       exists k :: 0 <= k < |cells| && FirstBlocked(Erase(g0, pre), cells, k) && g == Write(Erase(g0, pre), s, cells[..k]))
  }

  /**
    * The commit of an accepted move. When the piece is on the grid at most inside its current
    * footprint `cur` and the move check accepted `cand`, erasing `cur` leaves every cell of
    * `cand` empty, so the write loop runs to completion, and afterwards the piece holds exactly
    * the cells of `cand`.
    */
  lemma CommitSucceeds(g: Grid, s: Shape, cur: seq<Point>, cand: seq<Point>)
    requires IsGrid(g) && OnlyAt(g, s, cur) && Placeable(g, s, cand)
    ensures WriteClear(Erase(g, cur), cand)
    ensures HoldsExactly(Write(Erase(g, cur), s, cand), s, cand)
  {
    var e := Erase(g, cur);
    forall i | 0 <= i < |cand|
      ensures InBounds(cand[i]) && At(e, cand[i]) == null
    {
      var p := cand[i];
      assert e[p.x][p.y] == if Point(p.x, p.y) in cur then null else g[p.x][p.y];
    }
    var w := Write(e, s, cand);
    forall x, y | 0 <= x < Width && 0 <= y < Height
      ensures w[x][y] == s <==> Point(x, y) in cand
    {
      assert e[x][y] == if Point(x, y) in cur then null else g[x][y];
    }
  }

  /** A commit never touches a cell of another piece outside the erased footprint. */
  lemma CommitKeepsOtherPieces(g: Grid, s: Shape, cur: seq<Point>, cand: seq<Point>)
    requires IsGrid(g) && Placeable(g, s, cand)
    ensures forall x, y :: 0 <= x < Width && 0 <= y < Height && g[x][y] != null && g[x][y] != s && Point(x, y) !in cur
              ==> Write(Erase(g, cur), s, cand)[x][y] == g[x][y]
  {
  }

  /**
    * The erase half of a commit does not look at who holds a cell. A freshly spawned piece
    * holds no cell yet, but its first commit still erases its spawn footprint: here a T piece
    * spawned with origin (5, 20) moves down and deletes the cell (4, 20) of another piece `t`.
    */
  lemma SpawnCommitErasesForeignCell(s: Shape, t: Shape)
    requires s != t
    ensures var g := Write(EmptyGrid(), t, [Point(4, 20)]);
            var cur := Footprint(Point(5, 20), [Point(-1, 0), Point(0, 0), Point(1, 0), Point(0, 1)]);
            var cand := Footprint(Point(5, 19), [Point(-1, 0), Point(0, 0), Point(1, 0), Point(0, 1)]);
            OnlyAt(g, s, cur) && Placeable(g, s, cand) &&
            g[4][20] == t && Write(Erase(g, cur), s, cand)[4][20] == null
  {
    var g := Write(EmptyGrid(), t, [Point(4, 20)]);
    var cur := Footprint(Point(5, 20), [Point(-1, 0), Point(0, 0), Point(1, 0), Point(0, 1)]);
    var cand := Footprint(Point(5, 19), [Point(-1, 0), Point(0, 0), Point(1, 0), Point(0, 1)]);
    assert cur[0] == Point(4, 20);
    assert cand == [Point(4, 19), Point(5, 19), Point(6, 19), Point(5, 20)];
    forall i | 0 <= i < |cand|
      ensures InBounds(cand[i]) && At(g, cand[i]) == null
    {
      assert cand[i] != Point(4, 20);
    }
  }

  predicate RowFull(g: Grid, y: int)
    requires IsGrid(g) && 0 <= y < Height
  {
    forall x :: 0 <= x < Width ==> g[x][y] != null
  }

  /**
    * Row `y` removed: the rows below it are kept, every row above it moves down by one and
    * the top row is empty.
    */
  function Collapse(g: Grid, y: int): (c: Grid)
    requires IsGrid(g) && 0 <= y < Height
    ensures IsGrid(c)
    ensures forall x, j :: 0 <= x < Width && 0 <= j < y ==> c[x][j] == g[x][j]
    ensures forall x, j :: 0 <= x < Width && y <= j < Height - 1 ==> c[x][j] == g[x][j + 1]
    ensures forall x :: 0 <= x < Width ==> c[x][Height - 1] == null
  {
    seq(Width, x requires 0 <= x < Width => g[x][..y] + g[x][y + 1..] + [null])
  }

  /**
    * One `checkLineFullAndClear`: reports whether row `y` is full; rows below `y` are never
    * changed, a row that is not full leaves the grid as it was, and a full one leaves the top
    * row empty.
    */
  function ClearStep(g: Grid, y: int): (r: (Grid, bool))
    requires IsGrid(g) && 0 <= y < Height
    ensures IsGrid(r.0)
    ensures r.1 <==> RowFull(g, y)
    ensures !r.1 ==> r.0 == g
    ensures forall x, j :: 0 <= x < Width && 0 <= j < y ==> r.0[x][j] == g[x][j]
    ensures r.1 ==> forall x :: 0 <= x < Width ==> r.0[x][Height - 1] == null
  {
    if RowFull(g, y) then (Collapse(g, y), true) else (g, false)
  }

  predicate RowsInRange(ys: seq<int>)
  {
    forall i :: 0 <= i < |ys| ==> 0 <= ys[i] < Height
  }

  /** The rows `ys` checked and cleared in order; the grid left and the number of rows removed. */
  function ClearRows(g: Grid, ys: seq<int>): (r: (Grid, nat))
    requires IsGrid(g) && RowsInRange(ys)
    ensures IsGrid(r.0) && r.1 <= |ys|
    decreases |ys|
  {
    if ys == [] then (g, 0)
    else
      var before := ClearRows(g, ys[..|ys| - 1]);
      var step := ClearStep(before.0, ys[|ys| - 1]);
      (step.0, before.1 + if step.1 then 1 else 0)
  }

  lemma ClearRowsStep(g: Grid, ys: seq<int>, i: nat)
    requires IsGrid(g) && RowsInRange(ys) && i < |ys|
    ensures ClearRows(g, ys[..i + 1]).0 == ClearStep(ClearRows(g, ys[..i]).0, ys[i]).0
    ensures ClearRows(g, ys[..i + 1]).1 == ClearRows(g, ys[..i]).1 + if RowFull(ClearRows(g, ys[..i]).0, ys[i]) then 1 else 0
  {
    assert ys[..i + 1][..i] == ys[..i];
  }

  /** How many of the rows `ys` are full in `g`. */
  function FullCount(g: Grid, ys: seq<int>): nat
    requires IsGrid(g) && RowsInRange(ys)
    decreases |ys|
  {
    if ys == [] then 0
    else FullCount(g, ys[..|ys| - 1]) + if RowFull(g, ys[|ys| - 1]) then 1 else 0
  }

  /** Clearing rows from the top down never changes a row below the last row cleared. */
  lemma {:induction false} ClearRowsKeepsLowerRows(g: Grid, ys: seq<int>)
    requires IsGrid(g) && RowsInRange(ys) && StrictlyDescending(ys) && ys != []
    ensures forall x, j :: 0 <= x < Width && 0 <= j < ys[|ys| - 1] ==> ClearRows(g, ys).0[x][j] == g[x][j]
    decreases |ys|
  {
    var init := ys[..|ys| - 1];
    var y := ys[|ys| - 1];
    var before := ClearRows(g, init);
    if init != [] {
      ClearRowsKeepsLowerRows(g, init);
      assert init[|init| - 1] > y;
    }
  }

  /**
    * Visiting the touched rows from the highest to the lowest, as the engine does, removes as
    * many rows as were full before the first removal: a removal only moves rows above it,
    * which have all been visited already.
    */
  lemma {:induction false} ClearRowsCountsFullRows(g: Grid, ys: seq<int>)
    requires IsGrid(g) && RowsInRange(ys) && StrictlyDescending(ys)
    ensures ClearRows(g, ys).1 == FullCount(g, ys)
    decreases |ys|
  {
    if ys != [] {
      var init := ys[..|ys| - 1];
      var y := ys[|ys| - 1];
      ClearRowsCountsFullRows(g, init);
      if init != [] {
        ClearRowsKeepsLowerRows(g, init);
        assert init[|init| - 1] > y;
      }
      assert RowFull(ClearRows(g, init).0, y) == RowFull(g, y);
    }
  }

  /** The score for one `clearFullLines`: more rows at once pay more, and clearing nothing still pays 1. */
  function ScoreDelta(cleared: int): (points: int)
    ensures points >= 1
    ensures 1 <= cleared <= 4 ==> points >= 50 * cleared
  {
    match cleared
    case 4 => 500
    case 3 => 200
    case 2 => 100
    case 1 => 50
    case _ => 1
  }

  /** Clearing more rows at once never scores less. */
  lemma ScoreDeltaMonotone(a: int, b: int)
    requires 0 <= a <= b <= 4
    ensures ScoreDelta(a) <= ScoreDelta(b)
  {
  }
}

=== FILE: rotation.dfy ===
/**
  * The four orientations of a piece and the rotation directions.
  *
  * RotationDegree is an enum whose constants are declared in the order 0, 90, 180, 270;
  * rotating left moves to the next ordinal (wrapping 270 to 0) and rotating right to the
  * previous one (wrapping 0 to 270).
  */
module Rotation {

  /** The Shape methods treat a missing (null) direction as NoRotation. */
  datatype RotationDirection = Left | Right | NoRotation

  datatype RotationDegree = Degree0 | Degree90 | Degree180 | Degree270

  /** `RotationDegree.values()`, in declaration order. */
  const Values: seq<RotationDegree> := [Degree0, Degree90, Degree180, Degree270]

  /** The position of `d` in the declaration order. */
  function Ordinal(d: RotationDegree): (n: nat)
    ensures n < |Values| && Values[n] == d
  {
    match d
    case Degree0 => 0
    case Degree90 => 1
    case Degree180 => 2
    case Degree270 => 3
  }

  /** One step to the right: 0 wraps to 270, otherwise the previous ordinal. */
  function RotateRight(d: RotationDegree): (r: RotationDegree)
    ensures Ordinal(r) == (Ordinal(d) + 3) % 4
  {
    if d == Degree0 then Degree270 else Values[Ordinal(d) - 1]
  }

  /** One step to the left: 270 wraps to 0, otherwise the next ordinal. */
  function RotateLeft(d: RotationDegree): (r: RotationDegree)
    ensures Ordinal(r) == (Ordinal(d) + 1) % 4
  {
    if d == Degree270 then Degree0 else Values[Ordinal(d) + 1]
  }

  /** `rotate`: total over all pairs; only a real rotation changes the degree. */
  function Rotate(d: RotationDegree, dir: RotationDirection): (r: RotationDegree)
    ensures r == d <==> dir == NoRotation
  {
    match dir
    case Left => RotateLeft(d)
    case Right => RotateRight(d)
    case NoRotation => d
  }

  function Opposite(dir: RotationDirection): RotationDirection
  {
    match dir
    case Left => Right
    case Right => Left
    case NoRotation => NoRotation
  }

  /** A rotation followed by the opposite rotation gives back the original degree. */
  lemma OppositeUndoes(d: RotationDegree, dir: RotationDirection)
    ensures Rotate(Rotate(d, dir), Opposite(dir)) == d
  {
  }

  /** Four consecutive rotations in the same direction give back the original degree. */
  lemma FullTurn(d: RotationDegree, dir: RotationDirection)
    ensures Rotate(Rotate(Rotate(Rotate(d, dir), dir), dir), dir) == d
  {
  }
}

=== FILE: tetromino.dfy ===
/**
  * The seven piece kinds and their rotation tables.
  *
  * Each kind is given its four degree-0 offsets. At class initialisation the tables of
  * 90, 180 and 270 degrees are derived, in declaration order, from the table of the degree
  * one step to the right by the quarter turn (x, y) -> (y, -x), which is clockwise with y
  * pointing up. The tables
  * are shared by every piece of a kind and never change afterwards, so the model gives them
  * as the function `Vertexes`; `InitVertexes` is the construction loop, proved to build
  * exactly that function.
  */
module Tetromino {
  import opened Geometry
  import opened Rotation

  datatype Kind = ZShape | SShape | LineShape | TShape | SquareShape | LShape | MirroredLShape

  /** `Tetrominoes.values()`, in declaration order. */
  const Kinds: seq<Kind> := [ZShape, SShape, LineShape, TShape, SquareShape, LShape, MirroredLShape]

  function KindIndex(k: Kind): (i: nat)
    ensures i < |Kinds| && Kinds[i] == k
  {
    match k
    case ZShape => 0
    case SShape => 1
    case LineShape => 2
    case TShape => 3
    case SquareShape => 4
    case LShape => 5
    case MirroredLShape => 6
  }

  /**
    * `buidRandomTetrominoes` with the draw of `Random.nextInt(values().length)` as the input:
    * every index the generator can return selects a kind, and each kind has exactly one index.
    */
  function KindAt(randomIndex: nat): (k: Kind)
    requires randomIndex < |Kinds|
    ensures KindIndex(k) == randomIndex
  {
    Kinds[randomIndex]
  }

  /** The offsets each kind is declared with (its degree-0 table). */
  function Degree0Offsets(k: Kind): (vs: seq<Point>)
    ensures |vs| == 4
  {
    match k
    case ZShape => [Point(0, -1), Point(0, 0), Point(-1, 0), Point(-1, 1)]
    case SShape => [Point(0, -1), Point(0, 0), Point(1, 0), Point(1, 1)]
    case LineShape => [Point(0, -1), Point(0, 0), Point(0, 1), Point(0, 2)]
    case TShape => [Point(-1, 0), Point(0, 0), Point(1, 0), Point(0, 1)]
    case SquareShape => [Point(0, 0), Point(1, 0), Point(0, 1), Point(1, 1)]
    case LShape => [Point(-1, -1), Point(0, -1), Point(0, 0), Point(0, 1)]
    case MirroredLShape => [Point(1, -1), Point(0, -1), Point(0, 0), Point(0, 1)]
  }

  /** The quarter turn about the origin, clockwise with y pointing up. */
  function QuarterTurn(p: Point): Point
  {
    Point(p.y, -p.x)
  }

  function QuarterTurnAll(s: seq<Point>): (r: seq<Point>)
    ensures |r| == |s|
    ensures forall i :: 0 <= i < |s| ==> r[i] == QuarterTurn(s[i])
  {
    seq(|s|, i requires 0 <= i < |s| => QuarterTurn(s[i]))
  }

  /**
    * The table at degree `d` derived from the degree-0 table `base`: degree 0 is `base`
    * itself, every other degree the turn of the table of its right neighbour.
    */
  function Turned(base: seq<Point>, d: RotationDegree): (vs: seq<Point>)
    ensures |vs| == |base|
    decreases Ordinal(d)
  {
    if d == Degree0 then base
    else QuarterTurnAll(Turned(base, Rotate(d, RotationDirection.Right)))
  }

  /** The table of kind `k` at degree `d`. */
  function Vertexes(k: Kind, d: RotationDegree): (vs: seq<Point>)
    ensures |vs| == 4
  {
    Turned(Degree0Offsets(k), d)
  }

  /**
    * `initVertexes`: slot 0 holds the declared offsets; the loop visits the degrees in
    * declaration order and fills each other slot, element by element, with the turn of the
    * slot of the degree one step to the right, which an earlier iteration already filled.
    */
  method InitVertexes(k: Kind) returns (table: seq<seq<Point>>)
    ensures |table| == |Values|
    ensures forall d :: table[Ordinal(d)] == Vertexes(k, d)
  {
    var vertexes := new seq<Point>[|Values|];
    vertexes[Ordinal(Degree0)] := Degree0Offsets(k);
    var j := 0;
    while j < |Values|
      invariant 0 <= j <= |Values|
      invariant vertexes[0] == Vertexes(k, Degree0)
      invariant forall n :: 0 <= n < j ==> vertexes[n] == Vertexes(k, Values[n])
    {
      var degree := Values[j];
      if degree != Degree0 {
        var preDegree := Rotate(degree, RotationDirection.Right);
        assert Ordinal(preDegree) == j - 1;
        var curVertexes := TurnTable(vertexes[Ordinal(preDegree)]);
        vertexes[Ordinal(degree)] := curVertexes;
      }
      j := j + 1;
    }
    table := vertexes[..];
    forall d
      ensures table[Ordinal(d)] == Vertexes(k, d)
    {
      assert Values[Ordinal(d)] == d;
    }
  }

  /** The inner loop of `initVertexes`: a new table holding the turn of each offset of `pre`. */
  method TurnTable(pre: seq<Point>) returns (cur: seq<Point>)
    ensures cur == QuarterTurnAll(pre)
  {
    var curVertexes := new Point[|pre|];
    for i := 0 to |pre|
      invariant forall n :: 0 <= n < i ==> curVertexes[n] == QuarterTurn(pre[n])
    {
      curVertexes[i] := Point(pre[i].y, -pre[i].x);
    }
    cur := curVertexes[..];
  }

  lemma {:induction false} QuarterTurnAllFourTimes(s: seq<Point>)
    ensures QuarterTurnAll(QuarterTurnAll(QuarterTurnAll(QuarterTurnAll(s)))) == s
  {
    var r := QuarterTurnAll(QuarterTurnAll(QuarterTurnAll(QuarterTurnAll(s))));
    forall i | 0 <= i < |s|
      ensures r[i] == s[i]
    {
      assert r[i] == QuarterTurn(QuarterTurn(QuarterTurn(QuarterTurn(s[i]))));
    }
  }

  /**
    * Turning any derived table once more gives the table one step to the left; in
    * particular turning the 270-degree table gives back the base table.
    */
  lemma {:induction false} TurnIsLeftStep(base: seq<Point>, d: RotationDegree)
    ensures Turned(base, RotateLeft(d)) == QuarterTurnAll(Turned(base, d))
  {
    if d == Degree270 {
      assert Turned(base, Degree90) == QuarterTurnAll(base);
      assert Turned(base, Degree180) == QuarterTurnAll(Turned(base, Degree90));
      assert Turned(base, Degree270) == QuarterTurnAll(Turned(base, Degree180));
      QuarterTurnAllFourTimes(base);
    } else {
      assert RotateLeft(d) != Degree0;
      assert Rotate(RotateLeft(d), RotationDirection.Right) == d;
    }
  }

  lemma {:induction false} QuarterTurnAllDistinct(s: seq<Point>)
    requires Distinct(s)
    ensures Distinct(QuarterTurnAll(s))
  {
    var r := QuarterTurnAll(s);
    forall i, j | 0 <= i < j < |r|
      ensures r[i] != r[j]
    {
      assert s[i] != s[j];
    }
  }

  /** Every table derived from a table of different offsets holds different offsets. */
  lemma {:induction false} TurnedDistinct(base: seq<Point>, d: RotationDegree)
    requires Distinct(base)
    ensures Distinct(Turned(base, d))
    decreases Ordinal(d)
  {
    if d != Degree0 {
      TurnedDistinct(base, Rotate(d, RotationDirection.Right));
      QuarterTurnAllDistinct(Turned(base, Rotate(d, RotationDirection.Right)));
    }
  }

  /** The four declared offsets of every kind are four different cells. */
  lemma Degree0Distinct(k: Kind)
    ensures Distinct(Degree0Offsets(k))
  {
    var s := Degree0Offsets(k);
    assert s[0] != s[1] && s[0] != s[2] && s[0] != s[3] && s[1] != s[2] && s[1] != s[3] && s[2] != s[3];
  }

  /** The largest y among the offsets of `s`. */
  function MaxY(s: seq<Point>): (m: int)
    requires |s| > 0
    ensures exists i :: 0 <= i < |s| && s[i].y == m
    ensures forall i :: 0 <= i < |s| ==> s[i].y <= m
  {
    if |s| == 1 then s[0].y
    else
      var m := MaxY(s[..|s| - 1]);
      if s[|s| - 1].y > m then s[|s| - 1].y else m
  }

  /** The height of the highest degree-0 cell above the origin. */
  function InitialMaxY(k: Kind): int
  {
    MaxY(Degree0Offsets(k))
  }

  /** `getInitialMaxY`: starts from the first degree-0 y and keeps the running maximum. */
  method GetInitialMaxY(k: Kind) returns (m: int)
    ensures m == InitialMaxY(k)
  {
    var coordsOfDegree0 := Vertexes(k, Degree0);
    m := coordsOfDegree0[0].y;
    for i := 0 to |coordsOfDegree0|
      invariant i == 0 ==> m == coordsOfDegree0[0].y
      invariant i > 0 ==> m == MaxY(coordsOfDegree0[..i])
    {
      m := if m > coordsOfDegree0[i].y then m else coordsOfDegree0[i].y;
      assert coordsOfDegree0[..i + 1][..i] == coordsOfDegree0[..i];
    }
    assert coordsOfDegree0[..|coordsOfDegree0|] == coordsOfDegree0;
  }

  /** The line sticks two cells above its origin, every other kind one. */
  lemma InitialMaxYValues(k: Kind)
    ensures InitialMaxY(k) == if k == LineShape then 2 else 1
  {
    var s := Degree0Offsets(k);
    assert s[..3][..2][..1] == [s[0]];
  }
}
